=== FILE: README.md ===
# Sanity `.env` export, modelled in Dafny

This project models the environment-export script of `gatsby-provision-sanity`
(`index.js`). The script finds three values: a Sanity auth token, the studio's
dataset and the studio's project id. It checks that all three are there and
writes the same six-line `.env` document to `.env.development` and
`.env.production`.

The model treats the script as one pure function from its inputs to its
outcome:

- `EnvSettings` models resolution and validation. Each value is the
  environment variable (`SANITY_TOKEN`, `SANITY_DATASET`, `SANITY_PROJECT_ID`)
  when that variable is a non-empty string. Otherwise it is the fallback: the
  stored CLI `authToken`, or `studio.api?.dataset` / `studio.api?.projectId`.
  This follows JavaScript's `a || b`, where an empty string counts as absent.
  The three values are checked in the order token, dataset, project id. The
  first missing one ends the run with its own error. `Message` gives the text
  the script throws for each error.
- `EnvFile` models the document. `Render` joins the three comment lines and
  the `SANITY_TOKEN`, `SANITY_PROJECT_ID` and `SANITY_DATASET` lines with
  single newlines. `Parse` is its independent partner: it reads a document
  back into settings. Values are written verbatim, as characters, with no
  escaping. So the round trip holds exactly for settings whose values contain
  no newline, and the model proves both directions.
- `Text` holds `Join` (JavaScript's `Array.prototype.join`), `Split` (the
  partner used to read lines back) and the lemmas connecting them.
- `EnvExport.Run` puts the steps together. It returns either the error or the
  ordered list of (file name, content) writes. An error means the list does
  not exist, so nothing is written.

The environment, the global CLI configuration and the studio configuration
object are inputs (`EnvSettings.Inputs`). The file writes are the returned
list.

This script has no command-line flag and no default for these three values;
its precedence is only "environment, else fallback", and the model follows it.

## Model

| member | source | states |
|---|---|---|
| EnvSettings.Token | index.js:22 | the token is `SANITY_TOKEN` when non-empty, else the stored `authToken`; its contract is carried by `EnvSettings.Settle` and `EnvExport.EnvTokenWins` |
| EnvSettings.Dataset | index.js:23 | the dataset is `SANITY_DATASET` when non-empty, else `studio.api?.dataset`; its contract is carried by `EnvSettings.Settle` and `EnvExport.EnvStudioWins` |
| EnvSettings.ProjectId | index.js:24 | the project id is `SANITY_PROJECT_ID` when non-empty, else `studio.api?.projectId`; its contract is carried by `EnvSettings.Settle` and `EnvExport.EnvStudioWins` |
| EnvSettings.Message | index.js:26-36 | the text thrown for each error: "Could not find Sanity token.", "Could not find Sanity Studio dataset.", "Could not find Sanity Studio Project ID."; its contract is carried by `EnvSettings.MessagesDistinct` |
| EnvSettings.MessagesDistinct | index.js:26-36 | the three thrown messages are pairwise different, so the message identifies which value is missing |
| EnvSettings.Resolve | index.js:22-24 | a non-empty environment value wins; otherwise the fallback is used unchanged; the result is truthy exactly when the environment value or the fallback is truthy |
| EnvSettings.StudioDataset | index.js:23 | `studio.api?.dataset` is missing whenever `studio.api` is missing, and is the `api` section's dataset otherwise |
| EnvSettings.StudioProjectId | index.js:24 | `studio.api?.projectId` is missing whenever `studio.api` is missing, and is the `api` section's project id otherwise |
| EnvSettings.Validate | index.js:26-36 | success exactly when all three values are truthy; a missing token is reported before a missing dataset, which is reported before a missing project id (each as an if-and-only-if); on success the settings carry the three values, all non-empty |
| EnvSettings.Settle | index.js:22-36 | on success each setting is the environment variable when that is non-empty, and otherwise the stored token or the studio `api` value (so `api` must exist); the run fails with the token error exactly when neither `SANITY_TOKEN` nor the stored token is truthy |
| EnvSettings.NoStudioApi | index.js:23-36 | without a studio `api` section, the run succeeds exactly when a token resolves and both `SANITY_DATASET` and `SANITY_PROJECT_ID` are set to non-empty strings (an empty one counts as missing) |
| EnvFile.Lines | index.js:38-44 | the six lines: the three comment lines, then the token, project id and dataset lines; its contract is carried by `EnvFile.LinesSingle` and `EnvFile.RenderLines` |
| EnvFile.Render | index.js:38-45 | the document is the six lines joined by single newlines; its contract is carried by `EnvFile.RenderEnds`, `EnvFile.RenderLines` and `EnvFile.RoundTrip` |
| EnvFile.ValueLine | index.js:42-44 | a value line is the key, then `='`, then the value unchanged, then `'` |
| EnvFile.LineValue | index.js:42-44 | recovers a value from a line exactly when the line has the form `key='value'`, and the recovered value renders back to the same line |
| EnvFile.ValueLineChars | index.js:42-44 | a value line contains a character that is not in its key or quotes exactly when the value contains it; no escaping happens |
| EnvFile.HeaderSingleLine | index.js:39-41 | none of the three comment lines contains a newline |
| EnvFile.LinesSingle | index.js:38-44 | the six lines are all free of newlines exactly when the three values are |
| EnvFile.RenderEnds | index.js:38-45 | the document starts with the first comment line and ends with the dataset line, so its last character is a quote and there is no trailing newline |
| EnvFile.RenderLineCount | index.js:38-45 | splitting the document at newlines gives at least six lines, and exactly six exactly when no value contains a newline |
| EnvFile.RenderLines | index.js:38-45 | with single-line values, the document's lines are the three comment lines, then the token, project id and dataset lines, in that order |
| EnvFile.ParseRender | index.js:38-45 | reading back a rendered document gives back its settings when no value contains a newline |
| EnvFile.RenderParse | index.js:38-45 | every document that reads back is exactly the rendering of what it reads as, and the values it reads contain no newline |
| EnvFile.RoundTrip | index.js:38-45 | reading back a rendered document gives back its settings if and only if no value contains a newline |
| EnvFile.RenderInjective | index.js:38-45 | settings with single-line values that render to the same document are equal |
| EnvFile.ExampleRender | index.js:38-45 | token `tok`, project id `proj` and dataset `prod` give the three comment lines, then `SANITY_TOKEN='tok'`, `SANITY_PROJECT_ID='proj'`, `SANITY_DATASET='prod'` |
| Text.Join | index.js:45 | `Array.prototype.join`: the elements with the separator between neighbours only; its contract is carried by `Text.JoinEnds`, `Text.JoinSplit` and `Text.SplitJoinInverse` |
| Text.JoinEnds | index.js:45 | a joined sequence starts with its first element and ends with its last; no separator is added before the first or after the last |
| Text.JoinSplit | index.js:45 | joining the pieces of a split with the same character rebuilds the string |
| Text.SplitConcat | index.js:45 | splitting a string at a separator placed between two parts splits each part separately |
| Text.SplitJoinInverse | index.js:45 | joining separator-free lines with a single separator and splitting again gives back exactly those lines |
| Text.SplitJoinCount | index.js:45 | joining and splitting gives at least one piece per line, and exactly one per line if and only if no line contains the separator |
| EnvExport.Run | index.js:22-48 | the run fails exactly when one of the three resolved values is falsy, with the validation error; otherwise it writes exactly two files, `.env.development` then `.env.production`, with identical content that is the rendering of the resolved settings |
| EnvExport.RunErrors | index.js:22-36 | the error a run stops with, stated on the raw inputs: token first, then dataset, then project id, each as an if-and-only-if |
| EnvExport.RunReadsBack | index.js:38-48 | every written file reads back as the resolved settings when no value contains a newline |
| EnvExport.RunLines | index.js:38-48 | with single-line values, every written file is the three comment lines followed by the token, project id and dataset lines |
| EnvExport.EnvTokenWins | index.js:22 | with `SANITY_TOKEN` set and non-empty, the stored auth token has no effect on the outcome |
| EnvExport.EnvStudioWins | index.js:23-24 | with `SANITY_DATASET` and `SANITY_PROJECT_ID` both set and non-empty, the studio configuration has no effect on the outcome |
| EnvExport.ExampleRun | index.js:38-48 | with `SANITY_TOKEN=tok`, `SANITY_DATASET=prod` and `SANITY_PROJECT_ID=proj`, both files hold the three comment lines and then `SANITY_TOKEN='tok'`, `SANITY_PROJECT_ID='proj'`, `SANITY_DATASET='prod'`, whatever the fallbacks hold |

## Left out

- The file writes and the console message (index.js:47-52). `Run` returns the ordered list of writes instead. Failures of the file system are not modelled.
- The global CLI configuration lookup through Configstore (index.js:15-21). The stored `authToken` is an input, `Inputs.authToken`.
- Argument parsing with yargs-parser, `path.resolve` against `INIT_CWD`, and the dynamic `require` of the studio configuration (index.js:8-13). The parsed studio object is an input, and a failing `require` is not modelled.
- The process environment. The three variables are an input, `Inputs.env`.
- A studio configuration that is `null`. Reading `studio.api` then throws a TypeError at index.js:23 or index.js:24, unless the matching environment variable is set to a non-empty string, and the throw comes before the token check. `Studio` is always an object, so this throw is not modelled.
- The bytes written. Content is modelled as a sequence of Unicode characters, not as the UTF-8 bytes `fs.writeFileSync` produces from a JavaScript string of UTF-16 code units. A value holding a lone UTF-16 surrogate, which would reach the file as U+FFFD rather than verbatim, is outside the model.
- Values that are not strings. A number in the studio JSON, for instance, would be turned into text by the template literal. The model types every value as a string.
- Exceptions. Only the three validation errors (index.js:26-36) are modelled: each becomes `Err` of the matching `EnvSettings.Error`, and `EnvSettings.Message` gives its text. The other throws (a failing `require`, a `null` studio configuration, a failing write) are left out as listed above.

=== FILE: env_export.dfy ===
/** The whole export script as one pure step: from the environment, the
    stored CLI auth token and the studio configuration to either the error
    it throws or the list of files it writes, in order. The same document
    goes to `.env.development` and then to `.env.production`; an error
    means nothing is written at all. */
module EnvExport {
  import opened Results
  import opened Text
  import opened EnvSettings
  import opened EnvFile

  /** One file write: the file name and the complete new content. */
  datatype FileWrite = FileWrite(path: string, content: string)

  const DevelopmentFile: string := ".env.development"
  const ProductionFile: string := ".env.production"

  /** Resolves and validates the settings, then plans the two writes. */
  function Run(inp: Inputs): (r: Result<seq<FileWrite>, Error>)
    ensures r.Err? <==> !Present(Token(inp)) || !Present(Dataset(inp)) || !Present(ProjectId(inp))
    ensures r.Err? ==> r.error == Settle(inp).error
    ensures r.Ok? ==> |r.value| == 2
    ensures r.Ok? ==> r.value[0].path == DevelopmentFile && r.value[1].path == ProductionFile
    ensures r.Ok? ==> r.value[0].content == r.value[1].content
    ensures r.Ok? ==> exists s :: Settle(inp) == Ok(s) && r.value[0].content == Render(s)
  {
    match Settle(inp)
    case Err(e) => Err(e)
    case Ok(s) =>
      var content := Render(s);
      Ok([FileWrite(DevelopmentFile, content), FileWrite(ProductionFile, content)])
  }

  /** The error a run stops with, in terms of the inputs: a missing token is
      reported first, then a missing dataset, then a missing project id. */
  lemma RunErrors(inp: Inputs)
    ensures Run(inp) == Err(MissingToken) <==>
      !Present(inp.env.sanityToken) && !Present(inp.authToken)
    ensures Run(inp) == Err(MissingDataset) <==>
      (Present(inp.env.sanityToken) || Present(inp.authToken))
      && !Present(inp.env.sanityDataset) && !Present(StudioDataset(inp.studio))
    ensures Run(inp) == Err(MissingProjectId) <==>
      (Present(inp.env.sanityToken) || Present(inp.authToken))
      && (Present(inp.env.sanityDataset) || Present(StudioDataset(inp.studio)))
      && !Present(inp.env.sanityProjectId) && !Present(StudioProjectId(inp.studio))
  {
  }

  /** Every written file reads back as the resolved settings whenever no
      value holds a newline, so each of its value lines carries the
      environment variable when it is set to a non-empty string and the
      fallback otherwise. */
  lemma RunReadsBack(inp: Inputs, i: nat)
    requires Run(inp).Ok? && i < |Run(inp).value|
    requires SingleLineValues(Settle(inp).value)
    ensures Settle(inp).Ok? && Parse(Run(inp).value[i].content) == Some(Settle(inp).value)
  {
    var s := Settle(inp).value;
    assert Run(inp).value[i].content == Render(s);
    ParseRender(s);
  }

  /** A non-empty `SANITY_TOKEN` makes the stored auth token irrelevant. */
  lemma EnvTokenWins(inp: Inputs, stored: Option<string>)
    requires Present(inp.env.sanityToken)
    ensures Run(inp.(authToken := stored)) == Run(inp)
  {
  }

  /** With both `SANITY_DATASET` and `SANITY_PROJECT_ID` set to non-empty
      strings, the studio configuration is irrelevant. */
  lemma EnvStudioWins(inp: Inputs, studio: Studio)
    requires Present(inp.env.sanityDataset) && Present(inp.env.sanityProjectId)
    ensures Run(inp.(studio := studio)) == Run(inp)
  {
  }

  /** When no value holds a newline, every written file consists of exactly
      the three comment lines and then the token, project id and dataset
      lines, in that order. */
  lemma RunLines(inp: Inputs)
    requires Run(inp).Ok? && SingleLineValues(Settle(inp).value)
    ensures forall i :: 0 <= i < |Run(inp).value| ==>
      Split(Run(inp).value[i].content, NewLine) == Header + [
        ValueLine(TokenKey, Settle(inp).value.token),
        ValueLine(ProjectIdKey, Settle(inp).value.projectId),
        ValueLine(DatasetKey, Settle(inp).value.dataset)]
  {
    RenderLines(Settle(inp).value);
  }

  /** A run whose environment sets the token `tok`, the project id `proj`
      and the dataset `prod` writes both files with the three comment lines
      followed by the three value lines, whatever the stored token and the
      studio configuration hold. */
  lemma ExampleRun(inp: Inputs)
    requires inp.env == Env(Some("tok"), Some("prod"), Some("proj"))
    ensures Run(inp).Ok? && |Run(inp).value| == 2
    ensures Split(Run(inp).value[0].content, NewLine) == Header + ["SANITY_TOKEN='tok'", "SANITY_PROJECT_ID='proj'", "SANITY_DATASET='prod'"]
    ensures Run(inp).value[1].content == Run(inp).value[0].content
  {
    var s := Settle(inp).value;
    assert s == Settings("tok", "prod", "proj");
    ExampleRender(s);
    assert Run(inp).value[0].content == Render(s);
  }
}

=== FILE: env_file.dfy ===
/** The `.env` document the script writes: three fixed comment lines and
    then `SANITY_TOKEN`, `SANITY_PROJECT_ID` and `SANITY_DATASET`, each as
    `KEY='value'`, joined with single newlines. Values go in verbatim, with
    no escaping, so a value holding a newline breaks the six-line shape;
    `Parse` reads a document back and is the inverse of `Render` exactly
    on the settings whose values hold no newline. */
module EnvFile {
  import opened Results
  import opened Text
  import opened EnvSettings

  const NewLine: char := '\n'

  /** The three comment lines that open every generated file. */
  const Header: seq<string> := [
    "# All environment variables will be sourced",
    "# and made available to gatsby-config.js, gatsby-node.js, etc.",
    "# Do NOT commit this file to source control"
  ]

  const TokenKey: string := "SANITY_TOKEN"
  const ProjectIdKey: string := "SANITY_PROJECT_ID"
  const DatasetKey: string := "SANITY_DATASET"

  /** A line `key='value'`, with the value copied in unchanged. */
  function ValueLine(key: string, value: string): (r: string)
    ensures |r| == |key| + |value| + 3
    ensures r[..|key|] == key
    ensures r[|key|..|key| + 2] == "='"
    ensures r[|key| + 2..|r| - 1] == value
    ensures r[|r| - 1] == '\''
  {
    key + "='" + value + "'"
  }

  /** The value of a line `key='value'`, or nothing when the line does not
      have that shape. */
  function LineValue(line: string, key: string): (r: Option<string>)
    ensures r.Some? <==> exists v :: ValueLine(key, v) == line
    ensures r.Some? ==> ValueLine(key, r.value) == line
  {
    if |line| >= |key| + 3 && line[..|key|] == key && line[|key|..|key| + 2] == "='" && line[|line| - 1] == '\''
    then
      var v := line[|key| + 2..|line| - 1];
      assert ValueLine(key, v) == line;
      Some(v)
    else
      assert forall v :: ValueLine(key, v) != line by {
        forall v ensures ValueLine(key, v) != line {
        }
      }
      None
  }

  /** The six lines of the document for settings `s`. */
  function Lines(s: Settings): seq<string>
  {
    Header + [ValueLine(TokenKey, s.token), ValueLine(ProjectIdKey, s.projectId), ValueLine(DatasetKey, s.dataset)]
  }

  /** The document: its six lines joined by single newlines. */
  function Render(s: Settings): string
  {
    Join(Lines(s), [NewLine])
  }

  /** The document opens with the first comment line and closes with the
      dataset line, so it ends in a quote and never in a newline. */
  lemma RenderEnds(s: Settings)
    ensures |Header[0]| <= |Render(s)| && Render(s)[..|Header[0]|] == Header[0]
    ensures var d := ValueLine(DatasetKey, s.dataset);
      |d| <= |Render(s)| && Render(s)[|Render(s)| - |d|..] == d
    ensures Render(s)[|Render(s)| - 1] == '\''
  {
    JoinEnds(Lines(s), [NewLine]);
  }

  /** No value of the settings holds a newline. */
  predicate SingleLineValues(s: Settings)
  {
    NewLine !in s.token && NewLine !in s.projectId && NewLine !in s.dataset
  }

  /** Reads a document back into settings: it must be exactly the header
      followed by the token, project id and dataset lines. */
  function Parse(content: string): Option<Settings>
  {
    var ls := Split(content, NewLine);
    if |ls| != 6 || ls[..3] != Header then None
    else
      match (LineValue(ls[3], TokenKey), LineValue(ls[4], ProjectIdKey), LineValue(ls[5], DatasetKey))
      case (Some(t), Some(p), Some(d)) => Some(Settings(t, d, p))
      case _ => None
  }

  /** A value line holds a character outside its key and quotes exactly
      when its value does. */
  lemma ValueLineChars(key: string, value: string, c: char)
    requires c !in key && c != '=' && c != '\''
    ensures c in ValueLine(key, value) <==> c in value
  {
  }

  /* The three header facts are proved apart: each costs the solver a
     character-by-character look at a string literal. */

  lemma FirstCommentSingleLine()
    ensures NewLine !in Header[0]
  {
  }

  lemma SecondCommentSingleLine()
    ensures NewLine !in Header[1]
  {
    var h, a, b := Header[1], "# and made available to gatsby-config.js,", " gatsby-node.js, etc.";
    assert NewLine !in a && NewLine !in b;
    assert h[..|a|] == a && h[|a|..] == b;
    assert h == h[..|a|] + h[|a|..];
  }

  lemma ThirdCommentSingleLine()
    ensures NewLine !in Header[2]
  {
  }

  /** None of the header lines holds a newline. */
  lemma HeaderSingleLine()
    ensures forall i :: 0 <= i < |Header| ==> NewLine !in Header[i]
  {
    FirstCommentSingleLine();
    SecondCommentSingleLine();
    ThirdCommentSingleLine();
  }

  /** The document's lines are free of newlines exactly when the values are. */
  lemma LinesSingle(s: Settings)
    ensures (forall i :: 0 <= i < |Lines(s)| ==> NewLine !in Lines(s)[i]) <==> SingleLineValues(s)
  {
    ValueLineChars(TokenKey, s.token, NewLine);
    ValueLineChars(ProjectIdKey, s.projectId, NewLine);
    ValueLineChars(DatasetKey, s.dataset, NewLine);
    HeaderSingleLine();
    var ls := Lines(s);
    assert ls == Header + [ls[3], ls[4], ls[5]];
  }

  /** The document has exactly six lines when no value holds a newline, and
      more than six otherwise; a value with a newline adds lines of its own. */
  lemma RenderLineCount(s: Settings)
    ensures |Split(Render(s), NewLine)| >= 6
    ensures |Split(Render(s), NewLine)| == 6 <==> SingleLineValues(s)
  {
    SplitJoinCount(Lines(s), NewLine);
    LinesSingle(s);
  }

  /** With single-line values, the document's lines are exactly the header
      followed by the three value lines, in the order token, project id, dataset. */
  lemma RenderLines(s: Settings)
    requires SingleLineValues(s)
    ensures Split(Render(s), NewLine) == Header + [ValueLine(TokenKey, s.token), ValueLine(ProjectIdKey, s.projectId), ValueLine(DatasetKey, s.dataset)]
  {
    LinesSingle(s);
    SplitJoinInverse(Lines(s), NewLine);
  }

  /** Reading back a rendered document recovers its settings whenever no
      value holds a newline. */
  lemma ParseRender(s: Settings)
    requires SingleLineValues(s)
    ensures Parse(Render(s)) == Some(s)
  {
    RenderLines(s);
    var ls := Lines(s);
    assert ls[..3] == Header;
    assert LineValue(ls[3], TokenKey) == Some(s.token);
    assert LineValue(ls[4], ProjectIdKey) == Some(s.projectId);
    assert LineValue(ls[5], DatasetKey) == Some(s.dataset);
  }

  /** Every document that reads back is the rendering of what it reads as,
      and the values read hold no newline. */
  lemma RenderParse(content: string)
    ensures Parse(content).Some? ==> Render(Parse(content).value) == content && SingleLineValues(Parse(content).value)
  {
    if Parse(content).Some? {
      var s := Parse(content).value;
      var ls := Split(content, NewLine);
      var values := [ValueLine(TokenKey, s.token), ValueLine(ProjectIdKey, s.projectId), ValueLine(DatasetKey, s.dataset)];
      assert ls[3..] == values;
      assert ls == ls[..3] + ls[3..];
      assert Render(s) == content by {
        assert ls == Lines(s);
        JoinSplit(content, NewLine);
      }
      assert SingleLineValues(s) by {
        SplitPieces(content, NewLine);
        assert NewLine !in ls[3] && NewLine !in ls[4] && NewLine !in ls[5];
        ValueLineChars(TokenKey, s.token, NewLine);
        ValueLineChars(ProjectIdKey, s.projectId, NewLine);
        ValueLineChars(DatasetKey, s.dataset, NewLine);
      }
    }
  }

  /** Rendering then reading back is the identity exactly on the settings
      whose values hold no newline. */
  lemma RoundTrip(s: Settings)
    ensures Parse(Render(s)) == Some(s) <==> SingleLineValues(s)
  {
    if SingleLineValues(s) {
      ParseRender(s);
    } else {
      RenderParse(Render(s));
    }
  }

  /** Distinct settings with single-line values render to distinct documents. */
  lemma RenderInjective(s: Settings, t: Settings)
    requires SingleLineValues(s) && SingleLineValues(t)
    requires Render(s) == Render(t)
    ensures s == t
  {
    ParseRender(s);
    ParseRender(t);
  }

  /** The value lines for token `tok`, project id `proj` and dataset `prod`. */
  lemma ExampleValueLines()
    ensures ValueLine(TokenKey, "tok") == "SANITY_TOKEN='tok'"
    ensures ValueLine(ProjectIdKey, "proj") == "SANITY_PROJECT_ID='proj'"
    ensures ValueLine(DatasetKey, "prod") == "SANITY_DATASET='prod'"
  {
  }

  /** The document for token `tok`, project id `proj` and dataset `prod`:
      the three comment lines, then the three value lines. */
  lemma ExampleRender(s: Settings)
    requires s == Settings("tok", "prod", "proj")
    ensures Split(Render(s), NewLine) == Header + ["SANITY_TOKEN='tok'", "SANITY_PROJECT_ID='proj'", "SANITY_DATASET='prod'"]
  {
    RenderLines(s);
    ExampleValueLines();
  }
}

=== FILE: env_settings.dfy ===
/** How the export script settles the three values it writes: each comes
    from an environment variable when that variable is set to a non-empty
    string, and otherwise from a fallback (the stored CLI auth token or the
    studio configuration), following JavaScript's `a || b`. The values are
    then checked in a fixed order, and the first missing one ends the run. */
module EnvSettings {
  import opened Results

  /** The three environment variables the script reads. */
  datatype Env = Env(sanityToken: Option<string>, sanityDataset: Option<string>, sanityProjectId: Option<string>)

  /** The `api` section of the studio configuration. */
  datatype StudioApi = StudioApi(dataset: Option<string>, projectId: Option<string>)

  /** The studio configuration object; its `api` section may be missing. */
  datatype Studio = Studio(api: Option<StudioApi>)

  /** Everything the script reads: the environment, the stored `authToken`
      of the global CLI configuration, and the studio configuration. */
  datatype Inputs = Inputs(env: Env, authToken: Option<string>, studio: Studio)

  /** The three resolved values, once validation has accepted them. */
  datatype Settings = Settings(token: string, dataset: string, projectId: string)

  /** Why the script stops before writing anything. */
  datatype Error = MissingToken | MissingDataset | MissingProjectId

  /** The message the script throws for each error. */
  function Message(e: Error): string
  {
    match e
    case MissingToken => "Could not find Sanity token."
    case MissingDataset => "Could not find Sanity Studio dataset."
    case MissingProjectId => "Could not find Sanity Studio Project ID."
  }

  /** The three messages differ, so a message names the missing value. */
  lemma MessagesDistinct()
    ensures Message(MissingToken) != Message(MissingDataset)
    ensures Message(MissingDataset) != Message(MissingProjectId)
    ensures Message(MissingToken) != Message(MissingProjectId)
  {
  }

  /** JavaScript truthiness of an optional string: `undefined` and the
      empty string are both falsy. */
  predicate Present(o: Option<string>)
  {
    o.Some? && o.value != ""
  }

  /** `env || fallback`: the environment value when it is truthy, else the
      fallback unchanged (which may itself be empty or missing). */
  function Resolve(env: Option<string>, fallback: Option<string>): (r: Option<string>)
    ensures Present(env) ==> r == env
    ensures !Present(env) ==> r == fallback
    ensures Present(r) <==> Present(env) || Present(fallback)
  {
    if Present(env) then env else fallback
  }

  /** `studio.api?.dataset`: missing whenever the `api` section is. */
  function StudioDataset(studio: Studio): (r: Option<string>)
    ensures studio.api.None? ==> r.None?
    ensures studio.api.Some? ==> r == studio.api.value.dataset
  {
    match studio.api
    case None => None
    case Some(api) => api.dataset
  }

  /** `studio.api?.projectId`: missing whenever the `api` section is. */
  function StudioProjectId(studio: Studio): (r: Option<string>)
    ensures studio.api.None? ==> r.None?
    ensures studio.api.Some? ==> r == studio.api.value.projectId
  {
    match studio.api
    case None => None
    case Some(api) => api.projectId
  }

  /** The resolved token: `SANITY_TOKEN`, else the stored `authToken`. */
  function Token(inp: Inputs): Option<string>
  {
    Resolve(inp.env.sanityToken, inp.authToken)
  }

  /** The resolved dataset: `SANITY_DATASET`, else `studio.api?.dataset`. */
  function Dataset(inp: Inputs): Option<string>
  {
    Resolve(inp.env.sanityDataset, StudioDataset(inp.studio))
  }

  /** The resolved project id: `SANITY_PROJECT_ID`, else `studio.api?.projectId`. */
  function ProjectId(inp: Inputs): Option<string>
  {
    Resolve(inp.env.sanityProjectId, StudioProjectId(inp.studio))
  }

  /** Checks the three resolved values in the order token, dataset, project
      id, failing with the first one that is missing or empty. */
  function Validate(token: Option<string>, dataset: Option<string>, projectId: Option<string>): (r: Result<Settings, Error>)
    ensures r.Ok? <==> Present(token) && Present(dataset) && Present(projectId)
    ensures r == Err(MissingToken) <==> !Present(token)
    ensures r == Err(MissingDataset) <==> Present(token) && !Present(dataset)
    ensures r == Err(MissingProjectId) <==> Present(token) && Present(dataset) && !Present(projectId)
    ensures r.Ok? ==> r.value == Settings(token.value, dataset.value, projectId.value)
    ensures r.Ok? ==> r.value.token != "" && r.value.dataset != "" && r.value.projectId != ""
  {
    if !Present(token) then Err(MissingToken)
    else if !Present(dataset) then Err(MissingDataset)
    else if !Present(projectId) then Err(MissingProjectId)
    else Ok(Settings(token.value, dataset.value, projectId.value))
  }

  /** Resolution followed by validation, over the script's whole input. */
  function Settle(inp: Inputs): (r: Result<Settings, Error>)
    ensures r.Ok? ==> Present(inp.env.sanityToken) ==> r.value.token == inp.env.sanityToken.value
    ensures r.Ok? ==> !Present(inp.env.sanityToken) ==> Some(r.value.token) == inp.authToken
    ensures r.Ok? ==> Present(inp.env.sanityDataset) ==> r.value.dataset == inp.env.sanityDataset.value
    ensures r.Ok? ==> !Present(inp.env.sanityDataset) ==> inp.studio.api.Some? && Some(r.value.dataset) == inp.studio.api.value.dataset
    ensures r.Ok? ==> Present(inp.env.sanityProjectId) ==> r.value.projectId == inp.env.sanityProjectId.value
    ensures r.Ok? ==> !Present(inp.env.sanityProjectId) ==> inp.studio.api.Some? && Some(r.value.projectId) == inp.studio.api.value.projectId
    ensures r == Err(MissingToken) <==> !Present(inp.env.sanityToken) && !Present(inp.authToken)
  {
    Validate(Token(inp), Dataset(inp), ProjectId(inp))
  }

  /** Without an `api` section in the studio configuration, the run
      succeeds only if both `SANITY_DATASET` and `SANITY_PROJECT_ID` are set
      to non-empty strings. */
  lemma NoStudioApi(inp: Inputs)
    requires inp.studio.api.None?
    ensures Settle(inp).Ok? <==> (Present(Token(inp)) && Present(inp.env.sanityDataset) && Present(inp.env.sanityProjectId))
    ensures Settle(inp).Err? && Settle(inp) != Err(MissingToken) ==> !Present(inp.env.sanityDataset) || !Present(inp.env.sanityProjectId)
  {
  }
}

=== FILE: results.dfy ===
/** Optional values and success-or-error results, the two shapes the export
    script's inputs and outcome take once its globals and exceptions are
    made explicit. */
module Results {

  /** A value that may be missing (JavaScript's `undefined`). */
  datatype Option<+T> = None | Some(value: T)

  /** The outcome of a step that can fail with an error of type `E`. */
  datatype Result<+T, +E> = Ok(value: T) | Err(error: E)
}

=== FILE: text.dfy ===
/** Joining lines with a separator, as JavaScript's `Array.prototype.join`
    does, and splitting a string at every occurrence of one character, as
    `String.prototype.split` with a one-character separator does. */
module Text {

  /** The elements of `lines` with `sep` between each neighbouring pair:
      no separator before the first element nor after the last. */
  function Join(lines: seq<string>, sep: string): string
    decreases |lines|
  {
    if |lines| == 0 then ""
    else if |lines| == 1 then lines[0]
    else lines[0] + sep + Join(lines[1..], sep)
  }

  /** The pieces of `s` between occurrences of `c`; there is always at least one. */
  function Split(s: string, c: char): (r: seq<string>)
    ensures |r| >= 1
    decreases |s|
  {
    if |s| == 0 then [""]
    else
      var rest := Split(s[1..], c);
      if s[0] == c then [""] + rest
      else [[s[0]] + rest[0]] + rest[1..]
  }

  /** Joining a first element onto a non-empty rest puts one separator between them. */
  lemma JoinCons(a: string, t: seq<string>, sep: string)
    requires |t| > 0
    ensures Join([a] + t, sep) == a + sep + Join(t, sep)
  {
  }

  /** A joined sequence starts with its first element and ends with its last. */
  lemma {:induction false} JoinEnds(lines: seq<string>, sep: string)
    requires |lines| > 0
    ensures |lines[0]| <= |Join(lines, sep)| && Join(lines, sep)[..|lines[0]|] == lines[0]
    ensures |lines[|lines| - 1]| <= |Join(lines, sep)|
    ensures Join(lines, sep)[|Join(lines, sep)| - |lines[|lines| - 1]|..] == lines[|lines| - 1]
    decreases |lines|
  {
    if |lines| > 1 {
      JoinEnds(lines[1..], sep);
      var j := Join(lines[1..], sep);
      var last := lines[|lines| - 1];
      assert last == lines[1..][|lines[1..]| - 1];
      assert Join(lines, sep) == lines[0] + sep + j;
      assert (lines[0] + sep + j)[|lines[0] + sep + j| - |last|..] == j[|j| - |last|..];
    }
  }

  /** A string opening with the separator splits into an empty piece and
      the pieces of the remainder. */
  lemma SplitSep(t: string, c: char)
    ensures Split([c] + t, c) == [""] + Split(t, c)
  {
  }

  /** A string opening with any other character splits like the remainder,
      with that character put in front of the first piece. */
  lemma SplitChar(a: char, t: string, c: char)
    requires a != c
    ensures Split([a] + t, c) == [[a] + Split(t, c)[0]] + Split(t, c)[1..]
  {
  }

  /** Splitting undoes joining with the same character: every split can be
      joined back into the string it came from. */
  lemma {:induction false} JoinSplit(s: string, c: char)
    ensures Join(Split(s, c), [c]) == s
    decreases |s|
  {
    if |s| > 0 {
      var a, t := s[0], s[1..];
      assert s == [a] + t;
      var rest := Split(t, c);
      JoinSplit(t, c);
      if a == c {
        SplitSep(t, c);
        JoinCons("", rest, [c]);
      } else {
        SplitChar(a, t, c);
        if |rest| == 1 {
          assert Split(s, c) == [[a] + rest[0]];
        } else {
          JoinCons([a] + rest[0], rest[1..], [c]);
          JoinCons(rest[0], rest[1..], [c]);
          assert rest == [rest[0]] + rest[1..];
        }
      }
    }
  }

  /** No piece of a split holds the separator. */
  lemma {:induction false} SplitPieces(s: string, c: char)
    ensures forall i :: 0 <= i < |Split(s, c)| ==> c !in Split(s, c)[i]
    decreases |s|
  {
    if |s| > 0 {
      var a, t := s[0], s[1..];
      assert s == [a] + t;
      SplitPieces(t, c);
      var rest := Split(t, c);
      if a == c {
        SplitSep(t, c);
      } else {
        SplitChar(a, t, c);
        assert c !in [a] + rest[0];
      }
    }
  }

  /** A string without the separator is a single piece. */
  lemma {:induction false} SplitWithout(x: string, c: char)
    requires c !in x
    ensures Split(x, c) == [x]
    decreases |x|
  {
    if |x| > 0 {
      var a, t := x[0], x[1..];
      assert x == [a] + t;
      SplitWithout(t, c);
      SplitChar(a, t, c);
    }
  }

  /** A string holding the separator splits into two pieces or more. */
  lemma {:induction false} SplitWith(x: string, c: char)
    requires c in x
    ensures |Split(x, c)| >= 2
    decreases |x|
  {
    var a, t := x[0], x[1..];
    assert x == [a] + t;
    if a == c {
      SplitSep(t, c);
    } else {
      SplitWith(t, c);
      SplitChar(a, t, c);
    }
  }

  /** The inductive step of `SplitConcat` for a leading character other
      than the separator. */
  lemma SplitConcatChar(a: char, t: string, y: string, c: char)
    requires a != c
    requires Split(t + [c] + y, c) == Split(t, c) + Split(y, c)
    ensures Split([a] + (t + [c] + y), c) == Split([a] + t, c) + Split(y, c)
  {
  }

  /** Splitting at a separator between `x` and `y` splits each side on its own. */
  lemma {:induction false} SplitConcat(x: string, y: string, c: char)
    ensures Split(x + [c] + y, c) == Split(x, c) + Split(y, c)
    decreases |x|
  {
    if |x| == 0 {
      assert x + [c] + y == [c] + y;
      SplitSep(y, c);
    } else {
      var a, t := x[0], x[1..];
      var u := t + [c] + y;
      assert x == [a] + t;
      assert x + [c] + y == [a] + u;
      SplitConcat(t, y, c);
      if a == c {
        SplitSep(u, c);
        SplitSep(t, c);
        assert [""] + (Split(t, c) + Split(y, c)) == ([""] + Split(t, c)) + Split(y, c);
      } else {
        SplitConcatChar(a, t, y, c);
      }
    }
  }

  /** Joining lines free of the separator and splitting again gives the lines back. */
  lemma {:induction false} SplitJoinInverse(lines: seq<string>, c: char)
    requires |lines| > 0
    requires forall i :: 0 <= i < |lines| ==> c !in lines[i]
    ensures Split(Join(lines, [c]), c) == lines
    decreases |lines|
  {
    SplitWithout(lines[0], c);
    if |lines| > 1 {
      var t := lines[1..];
      assert lines == [lines[0]] + t;
      SplitJoinInverse(t, c);
      JoinCons(lines[0], t, [c]);
      SplitConcat(lines[0], Join(t, [c]), c);
    }
  }

  /** Joining and splitting again gives at least one piece per element, and
      exactly one per element precisely when no element holds the separator. */
  lemma {:induction false} SplitJoinCount(lines: seq<string>, c: char)
    requires |lines| > 0
    ensures |Split(Join(lines, [c]), c)| >= |lines|
    ensures |Split(Join(lines, [c]), c)| == |lines| <==> forall i :: 0 <= i < |lines| ==> c !in lines[i]
    decreases |lines|
  {
    if c in lines[0] {
      SplitWith(lines[0], c);
    } else {
      SplitWithout(lines[0], c);
    }
    if |lines| > 1 {
      var t := lines[1..];
      assert lines == [lines[0]] + t;
      SplitJoinCount(t, c);
      JoinCons(lines[0], t, [c]);
      SplitConcat(lines[0], Join(t, [c]), c);
      assert |Split(Join(lines, [c]), c)| == |Split(lines[0], c)| + |Split(Join(t, [c]), c)|;
      if forall i :: 0 <= i < |t| ==> c !in t[i] {
        if c !in lines[0] {
          forall i | 0 <= i < |lines| ensures c !in lines[i] {
            if i > 0 {
              assert lines[i] == t[i - 1];
            }
          }
        }
      } else {
        var j :| 0 <= j < |t| && c in t[j];
        assert c in lines[j + 1];
      }
    }
  }
}
